=== FILE: README.md ===
# Printer upload session, modelled in Dafny

This project models the protocol logic of `ChituCode.py`, a small desktop uploader for
networked 3D printers. The `sdcp/request/` topic the commands carry (ChituCode.py:139)
suggests the mainboards speak the SDCP protocol. The uploader finds a
mainboard with a UDP broadcast. It then sends a print file over HTTP with integrity
headers. Finally it uses a JSON-over-WebSocket channel to list the stored files and to
start a print.

The model keeps the uploader's session state and leaves out the GUI:

- `Session.Session` holds the object's four fields (`file_path`, `mainboard_ip`,
  `mainboard_id`, `uploaded_filename`) and whether the upload and print buttons are
  enabled.
- Each button or callback is one pure transition: `SelectFile`, `DiscoverPrinter`,
  `UploadFile`, `GetFileList`, `SubmitForPrint`. Each returns the next session, the
  requests it sends (`Request`) and the kinds of dialog it shows (`Report`).
- Network answers are inputs, already decoded. Discovery yields `Found(ip, id)` or
  `Timeout`. The upload answer is `Upload.Reply`. Command answers are `Replies.Reply`.
- `Session.Apply` feeds one user action to the session. A press on the upload or print
  button while that button is disabled does nothing, because Tk never runs a disabled
  button's command. `Session.Run` applies a sequence of actions.
- Python truthiness is modelled as written. A field counts as set only when it holds
  a non-empty string (`Session.IsSet`). A cancelled file dialog stores `""`.

Modules:

| module | what it holds |
|---|---|
| `Wrappers` | `Option` |
| `Decimal` | `str(n)` for a byte count, and reading it back |
| `Paths` | POSIX `os.path.basename` |
| `Tokens` | deleting `-` from a UUID's text; the shape of `uuid4()` text |
| `Discovery` | probe constants and the discovery outcome |
| `Upload` | upload URL, metadata headers, file part, the `"000000"` acceptance rule |
| `Commands` | the two command envelopes (258 list files, 128 start print) and their addressing |
| `Replies` | reading the file list and the `Ack` code of command replies |
| `Session` | the state machine, its invariant, and lemmas across transitions |

## Model

| member | source | states |
|---|---|---|
| Session.SelectFile | ChituCode.py:49-54 | The chosen path is stored even when the dialog was cancelled. The upload button is switched on only for a non-empty choice with a printer address held, and is never switched off here. Every other field is kept and nothing is sent. |
| Session.DiscoverPrinter | ChituCode.py:56-77 | The `M99999` probe always goes to 255.255.255.255:3000. A reply stores the address and id and enables upload when a file is set. A timeout clears only the address and disables upload; id, path, stored name and print button are kept. |
| Session.UploadFile | ChituCode.py:79-116 | Without a set path and address nothing changes and nothing is sent. Otherwise the file is POSTed to `http://<ip>:3030/uploadFile/upload` with the built headers, in field `File`, under its basename, as `application/octet-stream`. The print button ends enabled exactly when the code is accepted. Accepted: a 258 `/local/` command to the board's WebSocket URL follows, and the stored name comes from the listing. Rejected: the basename stays the stored name. |
| Session.GetFileList | ChituCode.py:118-157 | Without an address nothing changes and nothing is sent. Otherwise one command 258 for `/local/` goes to the board's WebSocket URL. Only the stored name changes: it becomes the first listed name or none. The error dialog appears exactly when the list is empty or missing. |
| Session.SubmitForPrint | ChituCode.py:159-215 | The session never changes. Without a set stored name and address nothing is sent. Otherwise one command 128 asks for the stored name from layer 0, and the reported outcome is the classified `Ack`. |
| Session.RunKeepsConsistent | ChituCode.py:69-77 | No sequence of events breaks the invariant: holding an address or having either button enabled implies holding a mainboard id. |
| Session.ReachableIsConsistent | ChituCode.py:16-19 | Every session reachable from the freshly built window satisfies the invariant. This assumes every discovery reply carries both keys as strings. |
| Session.CommandsAddressedToDiscoveredBoard | ChituCode.py:134-139 | From a consistent session, every WebSocket command has `RequestID`, `MainboardID` and `Topic` naming the held id, and `From` is 0. So a `null` id is never sent, given that every discovery reply carries a string `MainboardID`. |
| Session.UploadEnabledEitherOrder | ChituCode.py:51-73 | Choosing a file and discovering a printer enable upload in either order, and both orders give the same session. |
| Session.TimeoutBlocksNetworkActions | ChituCode.py:74-82 | After a timeout, upload, file listing and print each leave the session unchanged and send nothing. |
| Session.Apply | ChituCode.py:38-42 | The upload and print buttons start disabled, and a press on a disabled button does nothing: no state change, no request, no report. A press that sends anything happened on an enabled button. Pressing print never changes the session (the flags change at lines 77, 112 and 116). |
| Session.UploadThenPrint | ChituCode.py:110-182 | After an accepted upload whose listing names a file first, the print button is enabled and pressing it sends one start-print command for exactly that name. The command is addressed to the discovered board. |
| Session.RejectedUploadBlocksPrint | ChituCode.py:95-116 | After a rejected upload the local basename is the stored name, but the print button is disabled, so pressing it sends nothing and changes nothing. |
| Session.PrintReachesPrinterIffUploadAccepted | ChituCode.py:110-116 | When the listing names a file, pressing print after an upload sends a command exactly when the device's `code` was the string `000000`. |
| Session.AckMissingExactlyWhenAbsent | ChituCode.py:192-215 | A print request that is sent is reported as "Ack not found" exactly when the reply lacks the outer `Data`, the inner `Data` or `Ack`. |
| Upload.BuildHeaders | ChituCode.py:99-105 | `Check` is `"1"` and `Offset` is `"0"`. `S-File-MD5` is the digest. `TotalSize` is a canonical decimal numeral that reads back as the size. `Uuid` is the UUID text with every `-` deleted, so it holds no dash and is shorter than the text by its number of dashes. |
| Upload.UuidHeaderIsHexToken | ChituCode.py:94 | For text shaped like `uuid4()` output, the `Uuid` header is exactly 32 lower-case hex digits. |
| Upload.TotalSizeDeterminesSize | ChituCode.py:104 | Two uploads have the same `TotalSize` exactly when the files have the same size. |
| Commands.ListFilesEnvelope | ChituCode.py:127-140 | The envelope has command 258 and payload `{Url: "/local/"}`. Its `Id` is the dash-stripped UUID text and its `TimeStamp` is the supplied clock reading. With an id, it is addressed to that board in all of `RequestID`, `MainboardID`, `From` and `Topic`. |
| Commands.CommandIdIsHexToken | ChituCode.py:128 | For text shaped like `uuid4()` output, the `Id` of both the list-files and the start-print command is exactly 32 lower-case hex digits (the same expression recurs at line 169). |
| Commands.StartPrintEnvelope | ChituCode.py:168-182 | The envelope has command 128 and payload `{Filename, StartLayer: 0}`. Its `Id` is the dash-stripped UUID text and its `TimeStamp` is the supplied clock reading. With an id, it is addressed to that board in all four fields. |
| Commands.EnvelopesDifferOnlyInCommand | ChituCode.py:168-182 | Given the same id and fresh inputs, the start-print envelope equals the list-files one except for `Cmd` and the payload. |
| Commands.TopicRoundTrip | ChituCode.py:139 | Reading the id back out of `sdcp/request/<id>` gives exactly the id. |
| Replies.FileListOf | ChituCode.py:150 | A missing `Data`, inner `Data` or `FileList` reads as an empty list. Otherwise the present `FileList` is returned unchanged. |
| Replies.FirstFileName | ChituCode.py:150-157 | The result is none exactly when the list is empty or missing. Otherwise it is the first entry's `name`. |
| Replies.FirstFileNameIgnoresRest | ChituCode.py:151-153 | Entries after the first never affect the resolved name. |
| Replies.ClassifyAck | ChituCode.py:192-215 | `Ack` values 0 to 7 map to their fixed outcomes in table order. Any other integer maps to "unknown code" with that integer. A missing `Ack` maps to "Ack not found", and to nothing else. |
| Replies.KnownOutcomesDistinct | ChituCode.py:196-211 | The eight known outcomes are pairwise distinct. None of them is "unknown code" or "Ack not found". |
| Replies.ClassifyAckInjective | ChituCode.py:195-215 | Each `Ack` value, including a missing one, can be read back from its outcome. |
| Replies.ClassifyAckSurjective | ChituCode.py:195-215 | Each outcome the classifier can produce comes from the value it stands for. |
| Tokens.StripDashes | ChituCode.py:94 | The result has no `-`, and its length is the input's length minus the number of dashes in it. |
| Tokens.StripDashesAppend | ChituCode.py:94 | Deleting dashes distributes over concatenation. |
| Tokens.StripDashesOfDashFree | ChituCode.py:94 | Text without dashes is left unchanged, so deleting dashes is idempotent. |
| Tokens.TokenOfUuid | ChituCode.py:94 | The token made from `uuid4()` text is its five hex groups joined together: 32 lower-case hex digits. |
| Decimal.Show | ChituCode.py:104 | `str(n)` is a non-empty string of digits with no leading zero, except `"0"` itself. |
| Decimal.ValueOfShow | ChituCode.py:104 | Reading `str(n)` back gives `n`. |
| Decimal.ShowOfValue | ChituCode.py:104 | Every canonical numeral is `str` of its value, so the rendering is a bijection. |
| Paths.Basename | ChituCode.py:95 | The result is the longest suffix of the path that contains no `/`. |
| Paths.BasenameOfJoin | ChituCode.py:95 | The basename of `dir + "/" + name` is `name`, for any slash-free name. |

## Left out

- UDP socket work (ChituCode.py:61-67): creating the socket, `sendto`, `recvfrom` and
  the 5-second timeout are I/O. The probe is the `Broadcast` request, and the first reply
  or the timeout is the `Discovery.Outcome` input.
- HTTP and WebSocket transport (ChituCode.py:107-108, 124, 142-144, 165, 184-186) is
  I/O. Requests are data, and the decoded replies are inputs.
- MD5 hashing and file reading (ChituCode.py:87-93): the digest and the size are the
  opaque `Upload.FileFacts` input. File contents are not modelled.
- `uuid.uuid4()` and `time.time()` (ChituCode.py:94, 128, 136, 169, 178) are
  nondeterministic. The UUID text and the truncated time are inputs (`uuidText`,
  `Commands.Fresh`).
- JSON text encoding and decoding: envelopes and replies are structured datatypes. No
  encode/decode round trip on JSON text is stated.
- Discovery.Outcome: `Found` carries both `MainboardIP` and `MainboardID`, as strings.
  Two kinds of reply that the source accepts in part are not represented:
  - A `null` or non-string `MainboardID` is stored without raising (ChituCode.py:70).
  - A reply with `MainboardIP` but no `MainboardID` stores the address (line 69). It
    then raises `KeyError` at line 70, which `except socket.timeout` does not catch.
    On a first discovery this leaves an address with no id. After an earlier discovery
    it pairs the new board's address with the old board's id.
  In both cases `select_file` can then enable upload (lines 53-54). The list command
  after an accepted upload would carry `RequestID: null` and the topic
  `sdcp/request/None` (lines 134-139), or the old board's id. The invariant
  `Session.Consistent`, and the conclusion of
  `Session.CommandsAddressedToDiscoveredBoard` that no `null` id is sent, hold only
  because these replies are left out.
- Exceptions are not modelled:
  - undecodable discovery replies, or replies missing `Data` or `MainboardIP` (the
    reply missing only `MainboardID` is described above);
  - a `null` intermediate `Data` in a command reply;
  - a file entry without `name`;
  - transport failures.
  In the source these escape the Tk callback, sometimes after partly updating the
  fields. For example, `uploaded_filename` is set before the POST.
- Replies.ClassifyAck: `Ack` is modelled as an optional integer. Python also treats
  `True`, `False` and equal floats as equal to the integers 0 to 7. Those JSON values are
  not represented.
- Upload.Accepted: a non-string `code` is represented by any value other than
  `Some("000000")`. Such a code compares unequal in Python too, so the verdict is the
  same.
- Paths.Basename: only `/` separates path components. The Windows form of
  `os.path.basename` also splits on `\`, and that form is not modelled.
- The GUI (ChituCode.py:9-47, 217-224) is not modelled: widgets, the file label,
  dialog wording, debug `print`s, the Exit button and `main`. Only the enabled state of
  the two buttons and the kind of each dialog (`Session.Report`) are kept.
- Error paths the program does not have (the model adds none):
  - A discovery reply is never checked. A missing key raises (ChituCode.py:68-70), and a
    value of the wrong type is stored as it is.
  - An empty or missing file list shows an error dialog and clears the stored name
    (ChituCode.py:155-157).
  - A missing `Ack` only shows an error dialog (ChituCode.py:214-215).
  - Cancelling the file dialog does not disable an already enabled upload button
    (ChituCode.py:50-54).
  - A discovery timeout leaves the print button as it was (ChituCode.py:74-77). The
    guard in `submit_for_print` then stops any request (lines 160-162).
- The stored file is resolved as the first entry of the listing, not by name or digest
  (`Replies.FirstFileNameIgnoresRest`). The model states this behaviour and does not
  change it.

=== FILE: commands.dfy ===
/** The JSON command envelopes sent over the WebSocket channel, as structured
    values. Only the two commands the uploader issues are built. */
module Commands {
  import opened Wrappers
  import Tokens

  const ListFilesCmd: int := 258
  const StartPrintCmd: int := 128
  /** The storage location whose listing is requested. */
  const LocalStorageUrl: string := "/local/"
  const TopicPrefix: string := "sdcp/request/"
  /** The `From` value meaning "local PC software". */
  const FromLocalSoftware: int := 0

  function CommandUrl(ip: string): string {
    "ws://" + ip + ":3030/websocket"
  }

  /** The inner `Data` object of each command. */
  datatype Payload =
    | ListDir(url: string)
    | StartPrint(filename: string, startLayer: int)

  /** The outer `Data` object. `RequestID` and `MainboardID` hold the session's
      mainboard id, which is JSON `null` if no printer was ever found. */
  datatype Body = Body(cmd: int, payload: Payload, requestId: Option<string>,
                       mainboardId: Option<string>, timeStamp: int, from: int)

  datatype Envelope = Envelope(id: string, body: Body, topic: string)

  /** What each command needs that the environment provides: the text of a
      fresh UUID (for `Id`) and the current time truncated to whole seconds. */
  datatype Fresh = Fresh(uuidText: string, now: int)

  /** How the id is spelled inside the `Topic` string; Python renders a
      missing id as `None`. */
  function IdText(id: Option<string>): string {
    match id
    case Some(v) => v
    case None => "None"
  }

  /** The device side's reading of a topic: the mainboard id after the
      request prefix, if the prefix is there. */
  function TopicTarget(topic: string): Option<string> {
    if |TopicPrefix| <= |topic| && topic[..|TopicPrefix|] == TopicPrefix
    then Some(topic[|TopicPrefix|..])
    else None
  }

  /** An envelope addressed, consistently in all its fields, to the board
      with id `id` on behalf of local software. */
  predicate AddressedTo(e: Envelope, id: string) {
    && e.body.requestId == Some(id)
    && e.body.mainboardId == Some(id)
    && e.body.from == FromLocalSoftware
    && TopicTarget(e.topic) == Some(id)
  }

  /** The frame common to both commands. */
  function Frame(cmd: int, payload: Payload, mainboardId: Option<string>, gen: Fresh): Envelope {
    Envelope(Tokens.StripDashes(gen.uuidText),
             Body(cmd, payload, mainboardId, mainboardId, gen.now, FromLocalSoftware),
             TopicPrefix + IdText(mainboardId))
  }

  /** Command 258: list the files in local storage. */
  function ListFilesEnvelope(mainboardId: Option<string>, gen: Fresh): (e: Envelope)
    ensures e.body.cmd == 258
    ensures e.body.payload == ListDir("/local/")
    ensures e.id == Tokens.StripDashes(gen.uuidText) && e.body.timeStamp == gen.now
    ensures mainboardId.Some? ==> AddressedTo(e, mainboardId.value)
  {
    var e := Frame(ListFilesCmd, ListDir(LocalStorageUrl), mainboardId, gen);
    if mainboardId.Some? then TopicRoundTrip(mainboardId.value); e else e
  }

  /** Command 128: print `filename` from its first layer. */
  function StartPrintEnvelope(mainboardId: Option<string>, filename: string, gen: Fresh): (e: Envelope)
    ensures e.body.cmd == 128
    ensures e.body.payload == StartPrint(filename, 0)
    ensures e.id == Tokens.StripDashes(gen.uuidText) && e.body.timeStamp == gen.now
    ensures mainboardId.Some? ==> AddressedTo(e, mainboardId.value)
  {
    var e := Frame(StartPrintCmd, StartPrint(filename, 0), mainboardId, gen);
    if mainboardId.Some? then TopicRoundTrip(mainboardId.value); e else e
  }

  /** When the UUID text has the shape `uuid.uuid4()` gives it, each command's
      `Id` is a 32-digit lower-case hex token. */
  lemma CommandIdIsHexToken(mainboardId: Option<string>, filename: string, gen: Fresh)
    requires Tokens.CanonicalUuidText(gen.uuidText)
    ensures |ListFilesEnvelope(mainboardId, gen).id| == 32
    ensures Tokens.AllLowerHex(ListFilesEnvelope(mainboardId, gen).id)
    ensures |StartPrintEnvelope(mainboardId, filename, gen).id| == 32
    ensures Tokens.AllLowerHex(StartPrintEnvelope(mainboardId, filename, gen).id)
  {
    Tokens.TokenOfUuid(gen.uuidText);
  }

  /** The device reads back from a topic exactly the id that was put in it. */
  lemma TopicRoundTrip(id: string)
    ensures TopicTarget(TopicPrefix + id) == Some(id)
  {
  }

  /** Built from the same id and the same fresh inputs, the two commands
      differ only in `Cmd` and in the payload. */
  lemma EnvelopesDifferOnlyInCommand(mainboardId: Option<string>, filename: string, gen: Fresh)
    ensures var l := ListFilesEnvelope(mainboardId, gen);
            var p := StartPrintEnvelope(mainboardId, filename, gen);
            && l.id == p.id && l.topic == p.topic
            && l.body.(cmd := 128, payload := StartPrint(filename, 0)) == p.body
            && l.body.cmd != p.body.cmd
  {
  }
}

=== FILE: decimal.dfy ===
/** Decimal rendering of a byte count, as the uploader writes it into the
    `TotalSize` header, together with the reading a receiver applies to it. */
module Decimal {

  predicate IsDigit(c: char) {
    '0' <= c <= '9'
  }

  predicate AllDigits(s: string) {
    forall i :: 0 <= i < |s| ==> IsDigit(s[i])
  }

  /** A numeral as Python's `str` writes a non-negative integer: at least one
      digit and no leading zero unless the number is zero itself. */
  predicate Canonical(s: string) {
    && |s| >= 1
    && AllDigits(s)
    && (s[0] == '0' ==> s == "0")
  }

  function DigitChar(d: nat): (c: char)
    requires d < 10
    ensures IsDigit(c)
  {
    "0123456789"[d]
  }

  function DigitValue(c: char): (d: nat)
    requires IsDigit(c)
    ensures d < 10
    ensures DigitChar(d) == c
  {
    c as int - '0' as int
  }

  /** The numeral a receiver reads back: most significant digit first. */
  function Value(s: string): nat
    requires AllDigits(s)
  {
    if s == [] then 0 else Value(s[..|s| - 1]) * 10 + DigitValue(s[|s| - 1])
  }

  /** `str(n)` for a non-negative integer. */
  function Show(n: nat): (s: string)
    ensures Canonical(s)
    decreases n
  {
    if n < 10 then [DigitChar(n)] else Show(n / 10) + [DigitChar(n % 10)]
  }

  /** Reading the rendering gives back the number. */
  lemma {:induction false} ValueOfShow(n: nat)
    ensures Value(Show(n)) == n
    decreases n
  {
    if n >= 10 {
      var s := Show(n);
      assert s[..|s| - 1] == Show(n / 10);
      ValueOfShow(n / 10);
      assert DigitValue(DigitChar(n % 10)) == n % 10;
    } else {
      assert DigitValue(DigitChar(n)) == n;
    }
  }

  /** A numeral with a non-zero leading digit denotes a positive number. */
  lemma {:induction false} ValuePositive(s: string)
    requires |s| >= 1 && AllDigits(s) && s[0] != '0'
    ensures Value(s) > 0
    decreases |s|
  {
    if |s| > 1 {
      ValuePositive(s[..|s| - 1]);
    }
  }

  /** Every canonical numeral is the rendering of its value, so `Show` is a
      bijection between naturals and canonical numerals. */
  lemma {:induction false} ShowOfValue(s: string)
    requires Canonical(s)
    ensures Show(Value(s)) == s
    decreases |s|
  {
    var init := s[..|s| - 1];
    var last := s[|s| - 1];
    if |s| == 1 {
      assert s == [last];
    } else {
      assert init[0] == s[0];
      ValuePositive(init);
      ShowOfValue(init);
      var v := Value(s);
      assert v / 10 == Value(init) && v % 10 == DigitValue(last);
      assert v >= 10;
      assert Show(v) == Show(v / 10) + [DigitChar(v % 10)];
      assert s == init + [last];
    }
  }
}

=== FILE: discovery.dfy ===
/** The one-shot UDP discovery exchange. The socket work is not modelled: the
    probe is described as data and the outcome of the wait for a reply is an
    input. */
module Discovery {

  /** The literal probe text, sent as ASCII. */
  const Probe: string := "M99999"
  const BroadcastHost: string := "255.255.255.255"
  const DiscoveryPort: nat := 3000

  /** What the wait for a reply yields: the `Data.MainboardIP` and
      `Data.MainboardID` of the first reply, or a socket timeout. */
  datatype Outcome = Found(ip: string, id: string) | Timeout
}

=== FILE: paths.dfy ===
/** The final component of a file path, as `os.path.basename` computes it on a
    POSIX host: everything after the last `/`. */
module Paths {

  predicate NoSlash(s: string) {
    forall i :: 0 <= i < |s| ==> s[i] != '/'
  }

  /** The longest suffix of `p` that holds no `/`. */
  function Basename(p: string): (b: string)
    ensures NoSlash(b)
    ensures |b| <= |p| && b == p[|p| - |b|..]
    ensures |b| < |p| ==> p[|p| - |b| - 1] == '/'
    decreases |p|
  {
    if p == [] then []
    else if p[|p| - 1] == '/' then []
    else Basename(p[..|p| - 1]) + [p[|p| - 1]]
  }

  /** Joining a directory and a slash-free name with `/` and taking the
      basename gives back the name, whatever the directory holds. */
  lemma {:induction false} BasenameOfJoin(dir: string, name: string)
    requires NoSlash(name)
    ensures Basename(dir + "/" + name) == name
    decreases |name|
  {
    var p := dir + "/" + name;
    if name == [] {
      assert p[|p| - 1] == '/';
    } else {
      var init := name[..|name| - 1];
      assert p[..|p| - 1] == dir + "/" + init;
      BasenameOfJoin(dir, init);
      assert name == init + [name[|name| - 1]];
    }
  }
}

=== FILE: replies.dfy ===
/** The device's answers on the command channel, decoded, and the two
    readings the uploader makes of them: the first stored file's name and
    the outcome of a print request. */
module Replies {
  import opened Wrappers

  datatype FileEntry = FileEntry(name: string)

  /** The innermost `Data` object. A key that is absent, or present with a
      JSON `null`, is `None`; both read as "nothing there". */
  datatype Payload = Payload(fileList: Option<seq<FileEntry>>, ack: Option<int>)

  /** The outer `Data` object. */
  datatype OuterData = OuterData(data: Option<Payload>)

  /** A whole reply frame. */
  datatype Reply = Reply(data: Option<OuterData>)

  /** `Data.Data`, when both levels are there. */
  function PayloadOf(r: Reply): Option<Payload> {
    match r.data
    case None => None
    case Some(inner) => inner.data
  }

  /** `Data.Data.FileList`, reading any missing level as an empty list. */
  function FileListOf(r: Reply): (files: seq<FileEntry>)
    ensures PayloadOf(r).None? ==> files == []
    ensures PayloadOf(r).Some? && PayloadOf(r).value.fileList.None? ==> files == []
    ensures PayloadOf(r).Some? && PayloadOf(r).value.fileList.Some? ==>
              files == PayloadOf(r).value.fileList.value
  {
    match PayloadOf(r)
    case None => []
    case Some(p) => p.fileList.GetOr([])
  }

  /** The name the uploader takes as the stored file's: that of the first
      listed entry, or none when the listing is empty or missing. */
  function FirstFileName(r: Reply): (n: Option<string>)
    ensures n.None? <==> FileListOf(r) == []
    ensures n.Some? ==> n.value == FileListOf(r)[0].name
  {
    var files := FileListOf(r);
    if |files| > 0 then Some(files[0].name) else None
  }

  /** Only the first entry matters: anything listed after it is ignored. */
  lemma FirstFileNameIgnoresRest(first: FileEntry, rest: seq<FileEntry>, more: seq<FileEntry>)
    ensures FirstFileName(Reply(Some(OuterData(Some(Payload(Some([first] + rest), None))))))
         == FirstFileName(Reply(Some(OuterData(Some(Payload(Some([first] + more), None))))))
         == Some(first.name)
  {
  }

  /** `Data.Data.Ack`, or none when any level is missing. */
  function AckOf(r: Reply): Option<int> {
    match PayloadOf(r)
    case None => None
    case Some(p) => p.ack
  }

  /** What a print request's acknowledgement means. */
  datatype AckOutcome =
    | Started
    | Busy
    | FileNotFound
    | Md5Failed
    | ReadFailed
    | ResolutionMismatch
    | UnknownFormat
    | ModelMismatch
    | UnknownCode(code: int)
    | AckMissing

  /** The device-defined meanings of codes 0 to 7, by position. */
  const KnownOutcomes: seq<AckOutcome> :=
    [Started, Busy, FileNotFound, Md5Failed, ReadFailed, ResolutionMismatch, UnknownFormat, ModelMismatch]

  predicate IsKnownCode(code: int) {
    0 <= code < |KnownOutcomes|
  }

  /** The uploader's interpretation of an `Ack` value. */
  function ClassifyAck(ack: Option<int>): (o: AckOutcome)
    ensures o == AckMissing <==> ack.None?
    ensures ack.Some? && IsKnownCode(ack.value) ==> o == KnownOutcomes[ack.value]
    ensures o.UnknownCode? <==> ack.Some? && !IsKnownCode(ack.value)
    ensures o.UnknownCode? ==> o.code == ack.value
  {
    match ack
    case None => AckMissing
    case Some(code) =>
      if code == 0 then Started
      else if code == 1 then Busy
      else if code == 2 then FileNotFound
      else if code == 3 then Md5Failed
      else if code == 4 then ReadFailed
      else if code == 5 then ResolutionMismatch
      else if code == 6 then UnknownFormat
      else if code == 7 then ModelMismatch
      else UnknownCode(code)
  }

  /** The `Ack` value an outcome stands for; the inverse of `ClassifyAck`. */
  function AckValue(o: AckOutcome): Option<int> {
    match o
    case Started => Some(0)
    case Busy => Some(1)
    case FileNotFound => Some(2)
    case Md5Failed => Some(3)
    case ReadFailed => Some(4)
    case ResolutionMismatch => Some(5)
    case UnknownFormat => Some(6)
    case ModelMismatch => Some(7)
    case UnknownCode(c) => Some(c)
    case AckMissing => None
  }

  /** Outcomes `ClassifyAck` can produce: an unknown code is never one of 0..7. */
  predicate Reachable(o: AckOutcome) {
    o.UnknownCode? ==> !IsKnownCode(o.code)
  }

  /** The eight known outcomes are pairwise distinct and none is an unknown
      code or the missing-Ack outcome. */
  lemma KnownOutcomesDistinct()
    ensures forall i, j :: 0 <= i < j < |KnownOutcomes| ==> KnownOutcomes[i] != KnownOutcomes[j]
    ensures forall i :: 0 <= i < |KnownOutcomes| ==>
              !KnownOutcomes[i].UnknownCode? && KnownOutcomes[i] != AckMissing
  {
  }

  /** Classification loses nothing: every `Ack` value, present or not, can be
      read back from its outcome, so distinct values never share an outcome. */
  lemma ClassifyAckInjective(ack: Option<int>)
    ensures Reachable(ClassifyAck(ack))
    ensures AckValue(ClassifyAck(ack)) == ack
  {
  }

  /** Every reachable outcome is produced by exactly the value it stands for. */
  lemma ClassifyAckSurjective(o: AckOutcome)
    requires Reachable(o)
    ensures ClassifyAck(AckValue(o)) == o
  {
  }
}

=== FILE: session.dfy ===
/** One uploader window's session: its fields, the enabled state of the
    upload and print buttons, and one pure transition per button or callback.
    Each transition also says which requests it puts on the network and which
    kinds of message it shows; network answers arrive already decoded as
    inputs. */
module Session {
  import opened Wrappers
  import Paths
  import Discovery
  import Upload
  import Commands
  import Replies

  /** The fields of the uploader object. A Python string field counts as set
      only when it holds a non-empty string. */
  datatype Session = Session(
    filePath: Option<string>,
    mainboardIp: Option<string>,
    mainboardId: Option<string>,
    uploadedFilename: Option<string>,
    uploadEnabled: bool,
    printEnabled: bool)

  /** The state right after the window is built. */
  const Initial: Session := Session(None, None, None, None, false, false)

  predicate IsSet(v: Option<string>) {
    v.Some? && v.value != ""
  }

  /** A request the session sends. */
  datatype Request =
    | Broadcast(payload: string, host: string, port: nat)
    | HttpUpload(url: string, headers: Upload.Headers, part: Upload.FilePart)
    | WsCommand(url: string, envelope: Commands.Envelope)

  /** The kind of dialog the session shows (their wording is left out). */
  datatype Report =
    | PrinterFound(ip: string)
    | NoPrinterFound
    | MissingFileOrPrinter
    | Uploaded(name: string)
    | UploadFailed(name: string, messages: Option<string>)
    | PrinterNotFound
    | FileNotOnPrinter
    | NothingToPrint
    | PrintAck(outcome: Replies.AckOutcome)

  datatype Step = Step(next: Session, sent: seq<Request>, reports: seq<Report>)

  /** "Select File". `chosen` is what the file dialog returned; a cancelled
      dialog returns the empty string. The path is stored either way; the
      upload button is only ever switched on here, never off. */
  function SelectFile(s: Session, chosen: string): (t: Step)
    ensures t.next.filePath == Some(chosen)
    ensures t.next.uploadEnabled <==> s.uploadEnabled || (chosen != "" && IsSet(s.mainboardIp))
    ensures t.next.mainboardIp == s.mainboardIp && t.next.mainboardId == s.mainboardId
    ensures t.next.uploadedFilename == s.uploadedFilename && t.next.printEnabled == s.printEnabled
    ensures t.sent == [] && t.reports == []
  {
    var s1 := s.(filePath := Some(chosen));
    if chosen != "" && IsSet(s.mainboardIp) then Step(s1.(uploadEnabled := true), [], [])
    else Step(s1, [], [])
  }

  /** "Discover Printer": the probe is always broadcast; the outcome is the
      first reply or a timeout. */
  function DiscoverPrinter(s: Session, outcome: Discovery.Outcome): (t: Step)
    ensures t.sent == [Broadcast("M99999", "255.255.255.255", 3000)]
    ensures outcome.Found? ==>
              && t.next.mainboardIp == Some(outcome.ip)
              && t.next.mainboardId == Some(outcome.id)
              && (t.next.uploadEnabled <==> s.uploadEnabled || IsSet(s.filePath))
              && t.reports == [PrinterFound(outcome.ip)]
    ensures outcome.Timeout? ==>
              && t.next.mainboardIp.None?
              && !t.next.uploadEnabled
              && t.next.mainboardId == s.mainboardId
              && t.reports == [NoPrinterFound]
    ensures t.next.filePath == s.filePath && t.next.uploadedFilename == s.uploadedFilename
    ensures t.next.printEnabled == s.printEnabled
  {
    var probe := Broadcast(Discovery.Probe, Discovery.BroadcastHost, Discovery.DiscoveryPort);
    match outcome
    case Found(ip, id) =>
      var s1 := s.(mainboardIp := Some(ip), mainboardId := Some(id));
      Step(if IsSet(s.filePath) then s1.(uploadEnabled := true) else s1, [probe], [PrinterFound(ip)])
    case Timeout =>
      Step(s.(mainboardIp := None, uploadEnabled := false), [probe], [NoPrinterFound])
  }

  /** The file-list query, run on its own or right after an accepted upload.
      It needs a discovered printer; the stored file's name becomes the
      first listed name, or none. */
  function GetFileList(s: Session, gen: Commands.Fresh, reply: Replies.Reply): (t: Step)
    ensures !IsSet(s.mainboardIp) ==> t == Step(s, [], [PrinterNotFound])
    ensures IsSet(s.mainboardIp) ==>
              && t.next == s.(uploadedFilename := Replies.FirstFileName(reply))
              && |t.sent| == 1 && t.sent[0].WsCommand?
              && t.sent[0].url == Commands.CommandUrl(s.mainboardIp.value)
              && t.sent[0].envelope.body.cmd == 258
              && t.sent[0].envelope.body.payload == Commands.ListDir("/local/")
              && t.sent[0].envelope.body.mainboardId == s.mainboardId
              && (Replies.FileListOf(reply) == [] ==> t.reports == [FileNotOnPrinter])
              && (Replies.FileListOf(reply) != [] ==> t.reports == [])
  {
    if !IsSet(s.mainboardIp) then Step(s, [], [PrinterNotFound])
    else
      var request := WsCommand(Commands.CommandUrl(s.mainboardIp.value),
                               Commands.ListFilesEnvelope(s.mainboardId, gen));
      var name := Replies.FirstFileName(reply);
      Step(s.(uploadedFilename := name), [request], if name.Some? then [] else [FileNotOnPrinter])
  }

  /** "Upload File". Needs a selected file and a discovered printer. The
      stored name is first set to the local basename; an accepted upload then
      enables printing and resolves the name through the file list, a
      rejected one disables printing and keeps the basename. */
  function UploadFile(s: Session, file: Upload.FileFacts, uuidText: string, reply: Upload.Reply,
                      listGen: Commands.Fresh, listing: Replies.Reply): (t: Step)
    ensures !IsSet(s.filePath) || !IsSet(s.mainboardIp) ==> t == Step(s, [], [MissingFileOrPrinter])
    ensures IsSet(s.filePath) && IsSet(s.mainboardIp) ==>
              && |t.sent| >= 1
              && t.sent[0].HttpUpload?
              && t.sent[0].url == "http://" + s.mainboardIp.value + ":3030/uploadFile/upload"
              && t.sent[0].headers == Upload.BuildHeaders(file, uuidText)
              && t.sent[0].part == Upload.FilePart("File", Paths.Basename(s.filePath.value),
                                                   "application/octet-stream")
              && t.next.filePath == s.filePath
              && t.next.mainboardIp == s.mainboardIp && t.next.mainboardId == s.mainboardId
              && t.next.uploadEnabled == s.uploadEnabled
              && (t.next.printEnabled <==> Upload.Accepted(reply))
    ensures IsSet(s.filePath) && IsSet(s.mainboardIp) && Upload.Accepted(reply) ==>
              && t.next.uploadedFilename == Replies.FirstFileName(listing)
              && |t.sent| == 2 && t.sent[1].WsCommand?
              && t.sent[1].url == Commands.CommandUrl(s.mainboardIp.value)
              && t.sent[1].envelope.body.cmd == 258
              && t.sent[1].envelope.body.payload == Commands.ListDir("/local/")
              && t.sent[1].envelope.body.mainboardId == s.mainboardId
              && t.reports == [Uploaded(Paths.Basename(s.filePath.value))]
                              + (if Replies.FirstFileName(listing).None? then [FileNotOnPrinter] else [])
    ensures IsSet(s.filePath) && IsSet(s.mainboardIp) && !Upload.Accepted(reply) ==>
              && t.next.uploadedFilename == Some(Paths.Basename(s.filePath.value))
              && |t.sent| == 1
              && t.reports == [UploadFailed(Paths.Basename(s.filePath.value), reply.messages)]
  {
    if !IsSet(s.filePath) || !IsSet(s.mainboardIp) then Step(s, [], [MissingFileOrPrinter])
    else
      var name := Paths.Basename(s.filePath.value);
      var s1 := s.(uploadedFilename := Some(name));
      var request := HttpUpload(Upload.UploadUrl(s.mainboardIp.value),
                                Upload.BuildHeaders(file, uuidText), Upload.Part(name));
      if Upload.Accepted(reply) then
        var listed := GetFileList(s1.(printEnabled := true), listGen, listing);
        var sent := [request] + listed.sent;
        assert sent[0] == request && sent[1] == listed.sent[0];
        Step(listed.next, sent, [Uploaded(name)] + listed.reports)
      else
        Step(s1.(printEnabled := false), [request], [UploadFailed(name, reply.messages)])
  }

  /** "Submit for Print". Needs a stored file name and a discovered printer;
      the session's fields are left as they were, and the acknowledgement is
      reported through `ClassifyAck`. */
  function SubmitForPrint(s: Session, gen: Commands.Fresh, reply: Replies.Reply): (t: Step)
    ensures t.next == s
    ensures !IsSet(s.uploadedFilename) || !IsSet(s.mainboardIp) ==> t.sent == [] && t.reports == [NothingToPrint]
    ensures IsSet(s.uploadedFilename) && IsSet(s.mainboardIp) ==>
              && |t.sent| == 1 && t.sent[0].WsCommand?
              && t.sent[0].url == Commands.CommandUrl(s.mainboardIp.value)
              && t.sent[0].envelope.body.cmd == 128
              && t.sent[0].envelope.body.payload == Commands.StartPrint(s.uploadedFilename.value, 0)
              && t.sent[0].envelope.body.mainboardId == s.mainboardId
              && t.reports == [PrintAck(Replies.ClassifyAck(Replies.AckOf(reply)))]
  {
    if !IsSet(s.uploadedFilename) || !IsSet(s.mainboardIp) then Step(s, [], [NothingToPrint])
    else
      var request := WsCommand(Commands.CommandUrl(s.mainboardIp.value),
                               Commands.StartPrintEnvelope(s.mainboardId, s.uploadedFilename.value, gen));
      Step(s, [request], [PrintAck(Replies.ClassifyAck(Replies.AckOf(reply)))])
  }

  /** A user action together with the answers the outside world gives to it. */
  datatype Event =
    | Select(chosen: string)
    | Discover(outcome: Discovery.Outcome)
    | UploadPress(file: Upload.FileFacts, uuidText: string, uploadReply: Upload.Reply,
                  listGen: Commands.Fresh, listing: Replies.Reply)
    | PrintPress(gen: Commands.Fresh, ackReply: Replies.Reply)

  /** Tk never runs the command of a disabled button: pressing "Upload File"
      or "Submit for Print" while that button is disabled does nothing. The
      discovery and file buttons are always enabled. */
  function Apply(s: Session, e: Event): (t: Step)
    ensures e.UploadPress? && !s.uploadEnabled ==> t == Step(s, [], [])
    ensures e.PrintPress? && !s.printEnabled ==> t == Step(s, [], [])
    ensures e.PrintPress? ==> t.next == s
    ensures t.sent != [] && e.UploadPress? ==> s.uploadEnabled
    ensures t.sent != [] && e.PrintPress? ==> s.printEnabled
  {
    match e
    case Select(chosen) => SelectFile(s, chosen)
    case Discover(outcome) => DiscoverPrinter(s, outcome)
    case UploadPress(file, uuidText, reply, listGen, listing) =>
      if s.uploadEnabled then UploadFile(s, file, uuidText, reply, listGen, listing)
      else Step(s, [], [])
    case PrintPress(gen, reply) =>
      if s.printEnabled then SubmitForPrint(s, gen, reply) else Step(s, [], [])
  }

  /** The session after a sequence of events, in order. */
  function Run(s: Session, events: seq<Event>): Session
    decreases |events|
  {
    if events == [] then s else Run(Apply(s, events[0]).next, events[1..])
  }

  /** The session invariant: whenever a printer address is held or either
      button is enabled, a mainboard id is held too, so no command can be
      sent with a `null` id. */
  predicate Consistent(s: Session) {
    (IsSet(s.mainboardIp) || s.uploadEnabled || s.printEnabled) ==> s.mainboardId.Some?
  }

  lemma ApplyKeepsConsistent(s: Session, e: Event)
    requires Consistent(s)
    ensures Consistent(Apply(s, e).next)
  {
  }

  /** Every session the window can reach is consistent. */
  lemma {:induction false} RunKeepsConsistent(s: Session, events: seq<Event>)
    requires Consistent(s)
    ensures Consistent(Run(s, events))
    decreases |events|
  {
    if events != [] {
      ApplyKeepsConsistent(s, events[0]);
      RunKeepsConsistent(Apply(s, events[0]).next, events[1..]);
    }
  }

  lemma ReachableIsConsistent(events: seq<Event>)
    ensures Consistent(Run(Initial, events))
  {
    RunKeepsConsistent(Initial, events);
  }

  /** From a consistent session every command on the WebSocket channel is
      addressed, in all of `RequestID`, `MainboardID`, `From` and `Topic`, to
      the board the session discovered. */
  lemma CommandsAddressedToDiscoveredBoard(s: Session, e: Event)
    requires Consistent(s)
    ensures forall r :: r in Apply(s, e).sent && r.WsCommand? ==>
              s.mainboardId.Some? && Commands.AddressedTo(r.envelope, s.mainboardId.value)
  {
  }

  /** The upload button ends up enabled once a file is chosen and a printer
      is found, whichever happens first, and the two orders lead to the same
      session. */
  lemma UploadEnabledEitherOrder(s: Session, chosen: string, ip: string, id: string)
    requires chosen != "" && ip != ""
    ensures var a := DiscoverPrinter(SelectFile(s, chosen).next, Discovery.Found(ip, id)).next;
            var b := SelectFile(DiscoverPrinter(s, Discovery.Found(ip, id)).next, chosen).next;
            a == b && a.uploadEnabled
  {
  }

  /** A discovery timeout forgets the address and disables uploading, but
      keeps the id, the chosen path and the stored name; after it neither an
      upload nor a file listing nor a print request changes anything or
      reaches the network. */
  lemma TimeoutBlocksNetworkActions(s: Session, file: Upload.FileFacts, uuidText: string,
                                    reply: Upload.Reply, gen: Commands.Fresh,
                                    listing: Replies.Reply, ackReply: Replies.Reply)
    ensures var t := DiscoverPrinter(s, Discovery.Timeout).next;
            && t == s.(mainboardIp := None, uploadEnabled := false)
            && UploadFile(t, file, uuidText, reply, gen, listing) == Step(t, [], [MissingFileOrPrinter])
            && GetFileList(t, gen, listing) == Step(t, [], [PrinterNotFound])
            && SubmitForPrint(t, gen, ackReply) == Step(t, [], [NothingToPrint])
  {
  }

  /** End to end: after an accepted upload whose listing names a file first,
      pressing print asks the discovered board to print exactly that file
      from layer 0. */
  lemma UploadThenPrint(s: Session, file: Upload.FileFacts, uuidText: string, reply: Upload.Reply,
                        listGen: Commands.Fresh, listing: Replies.Reply,
                        printGen: Commands.Fresh, ackReply: Replies.Reply)
    requires Consistent(s)
    requires IsSet(s.filePath) && IsSet(s.mainboardIp) && Upload.Accepted(reply)
    requires Replies.FileListOf(listing) != [] && Replies.FileListOf(listing)[0].name != ""
    ensures var u := UploadFile(s, file, uuidText, reply, listGen, listing).next;
            var p := Apply(u, PrintPress(printGen, ackReply));
            && u.printEnabled
            && p.sent == [WsCommand(Commands.CommandUrl(s.mainboardIp.value),
                                    Commands.StartPrintEnvelope(s.mainboardId,
                                      Replies.FileListOf(listing)[0].name, printGen))]
            && Commands.AddressedTo(p.sent[0].envelope, s.mainboardId.value)
  {
  }

  /** A rejected upload leaves the local basename as the stored name but
      disables the print button, so pressing it next sends nothing and
      changes nothing: the basename never reaches the printer this way. */
  lemma RejectedUploadBlocksPrint(s: Session, file: Upload.FileFacts, uuidText: string,
                                  reply: Upload.Reply, listGen: Commands.Fresh,
                                  listing: Replies.Reply, printGen: Commands.Fresh,
                                  ackReply: Replies.Reply)
    requires IsSet(s.filePath) && IsSet(s.mainboardIp) && !Upload.Accepted(reply)
    ensures var u := UploadFile(s, file, uuidText, reply, listGen, listing).next;
            && u.uploadedFilename == Some(Paths.Basename(s.filePath.value))
            && Apply(u, PrintPress(printGen, ackReply)) == Step(u, [], [])
  {
  }

  /** The upload's verdict decides whether the next print press reaches the
      printer: when the listing names a file, a start-print command is sent
      exactly when the device answered with the code `000000`. */
  lemma PrintReachesPrinterIffUploadAccepted(s: Session, file: Upload.FileFacts, uuidText: string,
                                             reply: Upload.Reply, listGen: Commands.Fresh,
                                             listing: Replies.Reply, printGen: Commands.Fresh,
                                             ackReply: Replies.Reply)
    requires IsSet(s.filePath) && IsSet(s.mainboardIp)
    requires Replies.FileListOf(listing) != [] && Replies.FileListOf(listing)[0].name != ""
    ensures var u := UploadFile(s, file, uuidText, reply, listGen, listing).next;
            Apply(u, PrintPress(printGen, ackReply)).sent != [] <==> reply.code == Some("000000")
  {
    var t := UploadFile(s, file, uuidText, reply, listGen, listing);
    var u := t.next;
    var press := Apply(u, PrintPress(printGen, ackReply));
    if Upload.Accepted(reply) {
      assert u.uploadedFilename == Replies.FirstFileName(listing);
      assert u.printEnabled && IsSet(u.uploadedFilename) && IsSet(u.mainboardIp);
      var p := SubmitForPrint(u, printGen, ackReply);
      assert press == p && |p.sent| == 1;
    } else {
      assert !u.printEnabled;
      assert press == Step(u, [], []);
    }
  }

  /** A print request that reaches the printer is reported as "Ack not
      found" exactly when the reply lacks the outer `Data`, the inner `Data`
      or the `Ack` key. */
  lemma AckMissingExactlyWhenAbsent(s: Session, gen: Commands.Fresh, reply: Replies.Reply)
    requires IsSet(s.uploadedFilename) && IsSet(s.mainboardIp)
    ensures SubmitForPrint(s, gen, reply).reports == [PrintAck(Replies.AckMissing)]
            <==> (|| reply.data.None?
                  || reply.data.value.data.None?
                  || reply.data.value.data.value.ack.None?)
  {
  }
}

=== FILE: tokens.dfy ===
/** Random tokens. Both the upload's `Uuid` header and every command `Id` are
    the text of a fresh version-4 UUID with its `-` characters deleted. */
module Tokens {

  const Dash := '-'

  function DashCount(s: string): nat
    decreases |s|
  {
    if s == [] then 0 else (if s[0] == Dash then 1 else 0) + DashCount(s[1..])
  }

  predicate DashFree(s: string) {
    forall i :: 0 <= i < |s| ==> s[i] != Dash
  }

  /** `s.replace('-', '')`: the characters of `s` other than `-`, in order. */
  function StripDashes(s: string): (r: string)
    ensures DashFree(r)
    ensures |r| == |s| - DashCount(s)
    decreases |s|
  {
    if s == [] then []
    else if s[0] == Dash then StripDashes(s[1..])
    else [s[0]] + StripDashes(s[1..])
  }

  /** Deleting dashes distributes over concatenation. */
  lemma {:induction false} StripDashesAppend(a: string, b: string)
    ensures StripDashes(a + b) == StripDashes(a) + StripDashes(b)
    decreases |a|
  {
    if a == [] {
      assert a + b == b;
    } else {
      assert (a + b)[0] == a[0];
      assert (a + b)[1..] == a[1..] + b;
      StripDashesAppend(a[1..], b);
    }
  }

  /** A text without dashes is left as it is; in particular deleting dashes
      twice is the same as deleting them once. */
  lemma {:induction false} StripDashesOfDashFree(s: string)
    requires DashFree(s)
    ensures StripDashes(s) == s
    decreases |s|
  {
    if s != [] {
      StripDashesOfDashFree(s[1..]);
    }
  }

  predicate IsLowerHex(c: char) {
    ('0' <= c <= '9') || ('a' <= c <= 'f')
  }

  predicate AllLowerHex(s: string) {
    forall i :: 0 <= i < |s| ==> IsLowerHex(s[i])
  }

  predicate IsGroupSeparator(i: int) {
    i == 8 || i == 13 || i == 18 || i == 23
  }

  /** The text of `str(uuid.uuid4())`: 36 characters, lower-case hex digits
      in groups of 8-4-4-4-12 separated by `-`. */
  predicate CanonicalUuidText(u: string) {
    && |u| == 36
    && forall i :: 0 <= i < |u| ==> if IsGroupSeparator(i) then u[i] == Dash else IsLowerHex(u[i])
  }

  /** A dash-free group followed by a dash keeps the group and drops the dash. */
  lemma {:induction false} StripGroup(g: string, rest: string)
    requires DashFree(g)
    ensures StripDashes(g + [Dash] + rest) == g + StripDashes(rest)
    decreases |g|
  {
    var t := g + [Dash] + rest;
    if g == [] {
      assert t == [Dash] + rest;
      assert t[1..] == rest;
    } else {
      assert t[0] == g[0];
      assert t[1..] == g[1..] + [Dash] + rest;
      StripGroup(g[1..], rest);
      assert g == [g[0]] + g[1..];
    }
  }

  /** The five groups of a UUID's text, as slices. */
  lemma UuidGroups(u: string)
    requires CanonicalUuidText(u)
    ensures u == u[..8] + [Dash] + (u[9..13] + [Dash] + (u[14..18] + [Dash] + (u[19..23] + [Dash] + u[24..])))
    ensures AllLowerHex(u[..8]) && AllLowerHex(u[9..13]) && AllLowerHex(u[14..18])
    ensures AllLowerHex(u[19..23]) && AllLowerHex(u[24..])
  {
  }

  lemma HexIsDashFree(s: string)
    requires AllLowerHex(s)
    ensures DashFree(s)
  {
  }

  /** Five dash-free groups joined by dashes lose exactly the dashes. */
  lemma TokenOfGroups(g0: string, g1: string, g2: string, g3: string, g4: string)
    requires DashFree(g0) && DashFree(g1) && DashFree(g2) && DashFree(g3) && DashFree(g4)
    ensures StripDashes(g0 + [Dash] + (g1 + [Dash] + (g2 + [Dash] + (g3 + [Dash] + g4))))
         == g0 + (g1 + (g2 + (g3 + g4)))
  {
    var r3 := g3 + [Dash] + g4;
    var r2 := g2 + [Dash] + r3;
    var r1 := g1 + [Dash] + r2;
    StripDashesOfDashFree(g4);
    StripGroup(g3, g4);
    StripGroup(g2, r3);
    StripGroup(g1, r2);
    StripGroup(g0, r1);
  }

  lemma HexOfGroups(g0: string, g1: string, g2: string, g3: string, g4: string)
    requires AllLowerHex(g0) && AllLowerHex(g1) && AllLowerHex(g2)
    requires AllLowerHex(g3) && AllLowerHex(g4)
    ensures AllLowerHex(g0 + (g1 + (g2 + (g3 + g4))))
  {
  }

  /** The token made from a UUID's text is its five hex groups run together:
      32 lower-case hex digits. */
  lemma TokenOfUuid(u: string)
    requires CanonicalUuidText(u)
    ensures StripDashes(u) == u[..8] + u[9..13] + u[14..18] + u[19..23] + u[24..]
    ensures |StripDashes(u)| == 32 && AllLowerHex(StripDashes(u))
  {
    var g0, g1, g2, g3, g4 := u[..8], u[9..13], u[14..18], u[19..23], u[24..];
    UuidGroups(u);
    HexIsDashFree(g0);
    HexIsDashFree(g1);
    HexIsDashFree(g2);
    HexIsDashFree(g3);
    HexIsDashFree(g4);
    TokenOfGroups(g0, g1, g2, g3, g4);
    HexOfGroups(g0, g1, g2, g3, g4);
    assert g0 + (g1 + (g2 + (g3 + g4))) == g0 + g1 + g2 + g3 + g4;
  }
}

=== FILE: upload.dfy ===
/** The HTTP file upload: where it goes, the metadata headers that accompany
    the file, and how the device's answer is judged. */
module Upload {
  import opened Wrappers
  import Decimal
  import Tokens

  const FileField: string := "File"
  const OctetStream: string := "application/octet-stream"
  /** The only `code` value the uploader treats as success. */
  const SuccessCode: string := "000000"

  function UploadUrl(ip: string): string {
    "http://" + ip + ":3030/uploadFile/upload"
  }

  /** What the uploader learns about the local file before sending it: the
      hex MD5 digest of its contents and its size in bytes. */
  datatype FileFacts = FileFacts(md5: string, size: nat)

  /** The five metadata headers, by their wire names
      `S-File-MD5`, `Check`, `Offset`, `Uuid` and `TotalSize`. */
  datatype Headers = Headers(fileMd5: string, check: string, offset: string, uuid: string, totalSize: string)

  /** The multipart part carrying the file. */
  datatype FilePart = FilePart(field: string, fileName: string, contentType: string)

  /** The headers for one upload; `uuidText` is the text of the freshly
      generated UUID, before its dashes are deleted. */
  function BuildHeaders(file: FileFacts, uuidText: string): (h: Headers)
    ensures h.fileMd5 == file.md5
    ensures h.check == "1" && h.offset == "0"
    ensures Decimal.Canonical(h.totalSize) && Decimal.Value(h.totalSize) == file.size
    ensures h.uuid == Tokens.StripDashes(uuidText)
    ensures Tokens.DashFree(h.uuid)
    ensures |h.uuid| == |uuidText| - Tokens.DashCount(uuidText)
  {
    Decimal.ValueOfShow(file.size);
    Headers(file.md5, "1", "0", Tokens.StripDashes(uuidText), Decimal.Show(file.size))
  }

  /** When the UUID text has the shape `uuid.uuid4()` gives it, the `Uuid`
      header is a 32-digit lower-case hex token. */
  lemma UuidHeaderIsHexToken(file: FileFacts, uuidText: string)
    requires Tokens.CanonicalUuidText(uuidText)
    ensures |BuildHeaders(file, uuidText).uuid| == 32
    ensures Tokens.AllLowerHex(BuildHeaders(file, uuidText).uuid)
  {
    Tokens.TokenOfUuid(uuidText);
  }

  /** A reader's view of `TotalSize`: the headers of two uploads agree on it
      exactly when the two files have the same size. */
  lemma TotalSizeDeterminesSize(a: FileFacts, b: FileFacts, ua: string, ub: string)
    ensures BuildHeaders(a, ua).totalSize == BuildHeaders(b, ub).totalSize <==> a.size == b.size
  {
  }

  function Part(fileName: string): FilePart {
    FilePart(FileField, fileName, OctetStream)
  }

  /** The decoded JSON answer: its `code` and `messages` keys, either of which
      may be absent. A `code` that is not a string is represented by any
      value other than `Some(SuccessCode)`, since it compares unequal too. */
  datatype Reply = Reply(code: Option<string>, messages: Option<string>)

  predicate Accepted(r: Reply) {
    r.code == Some(SuccessCode)
  }
}

=== FILE: wrappers.dfy ===
/** Optional values, used wherever the uploader holds a field that may still be `None`
    or reads a JSON key that may be absent. */
module Wrappers {

  datatype Option<+T> = None | Some(value: T) {

    /** The carried value, or `default` when there is none. */
    function GetOr(default: T): T {
      match this
      case Some(v) => v
      case None => default
    }
  }
}
